=== FILE: README.md ===
# ConversationRelay Translator — profile store, validation and forms, in Dafny

This project models the part of the ConversationRelay Translator web application that manages
translation **profiles** and lists live **sessions**:

- the single-table DynamoDB layout of a profile (`pk1 = "profile"`, `sk1 = <phone number>` on the
  `profile` sort key) and the put / get / list / delete operations over it (`Repository`, on an
  abstract key–value table in `Store`);
- the two uniqueness checks, phone number and Flex worker handle (`Validator`), and the
  `GET /api/profiles/check` route that runs both and maps them to a 200, 400 or 500 reply
  (`CheckRoute`);
- the Formik profile form: its Yup validation schema, including the phone-number regular
  expression `^\+?[1-9]\d{1,14}$`, the initial-values merge, the submit handler that blocks a new
  profile whose phone number or handle is taken, and the language change (`FormikForm`);
- the plain React profile form: its default state, field update, language change and the
  `isSubmitting` reset (`ProfileForm`);
- the session list's three sort orders and the conversation link of each row (`Sessions`).

A profile (`Types.UserProfile`) has sixteen always-present fields and three Flex fields, which are
`Option`s: the store never writes them, so a profile read back from the table has none of them.
The table is a map from `(pk, sk)` keys to attribute maps plus one flag, `reachable`. When the flag
is false, every store call fails, which stands in for any AWS error. JavaScript falsiness of an
optional string is `Common.IsBlank` and `a || b` is `Common.OrElse`.

Facts about the application that the proofs establish:

- Saving a profile and reading it back loses `useFlex`, `flexNumber` and `flexWorkerHandle`
  (`Repository.RoundTripIdentityIff`).
- Because no write stores a handle, the Flex-handle check answers `false` on every table the
  repository can build. It therefore never blocks a submission
  (`Validator.HandleCheckNeverFiresOnRepositoryTables`, `FormikForm.HandleNeverBlocksOnRepositoryTables`).
- A check answered with an error status (400 or 500) does not block submission: the error body
  has no flags, so the form submits anyway (`FormikForm.UnreachableStoreFailsOpen`).
- The two forms' language changes agree (`FormikForm.LanguageChangeMatchesProfileForm`). Their
  defaults differ: `calleeLanguageCode` is `"es-MX"` in one and `"es"` in the other.

## Model

| member | source | states |
|---|---|---|
| Repository.ProfileToItem | webapp/src/lib/dynamodb.ts:19-41 | the item is keyed by (phone number, "profile"), has pk1 = "profile" and sk1 = the phone number, and holds exactly the key attributes and the fifteen mapped fields, each with the right attribute type |
| Repository.ProfileItemAttributes | webapp/src/lib/dynamodb.ts:19-41 | the written item lies in the "profile" partition, its sk1 is the phone number, and it holds no Flex attribute |
| Repository.ItemToProfile | webapp/src/lib/dynamodb.ts:44-63 | the decoded profile's phone number is the item's pk and its three Flex fields are absent |
| Repository.ProfileToItemFieldValues | webapp/src/lib/dynamodb.ts:25-39 | each of the fifteen mapped fields is written under the attribute of its own name, as a string for a text field and a boolean for callee details, holding that field's value |
| Repository.ItemToProfileFieldValues | webapp/src/lib/dynamodb.ts:47-61 | each of the fifteen mapped fields of the decoded profile takes the value of the attribute of its own name |
| Repository.RoundTripKeepsMappedFields | webapp/src/lib/dynamodb.ts:19-63 | decoding an encoded profile gives back every non-Flex field unchanged and drops the Flex fields |
| Repository.RoundTripIdentityIff | webapp/src/lib/dynamodb.ts:19-63 | a profile survives encode-then-decode exactly if and only if it has no Flex field set |
| Repository.ItemRoundTrip | webapp/src/lib/dynamodb.ts:19-63 | every item laid out as the writer lays it out re-encodes to itself after decoding |
| Repository.PutProfile | webapp/src/lib/dynamodb.ts:66-75 | succeeds exactly when the store is reachable; then the profile's key holds its encoded item and every other key is untouched |
| Repository.GetProfile | webapp/src/lib/dynamodb.ts:78-91 | fails exactly when the store is unreachable; answers nothing exactly when the key is absent; a found profile is the decoded item stored at (phone number, "profile") and carries the requested phone number |
| Repository.DeleteProfile | webapp/src/lib/dynamodb.ts:109-119 | succeeds exactly when reachable; afterwards the key is absent and every other key is untouched |
| Repository.PutThenGet | webapp/src/lib/dynamodb.ts:66-91 | reading right after a successful put returns the put profile without its Flex fields |
| Repository.PutOverwrites | webapp/src/lib/dynamodb.ts:66-75 | a second put of the same phone number replaces the first entirely |
| Repository.DeleteThenGet | webapp/src/lib/dynamodb.ts:78-119 | reading right after a successful delete finds nothing |
| Repository.WritesLeaveOtherProfiles | webapp/src/lib/dynamodb.ts:66-119 | a put or delete of one phone number leaves the reading of every other phone number unchanged |
| Repository.ListProfiles | webapp/src/lib/dynamodb.ts:94-106 | returns one decoded profile per item of the "profile" partition, each exactly once, and the empty list exactly when the partition is empty; fails exactly when unreachable |
| Validator.CheckPhoneNumberUsed | webapp/src/lib/validator.ts:24-41 | a blank number answers false without touching the store; otherwise it fails exactly when unreachable and answers true exactly when a profile is stored under that number |
| Validator.CheckFlexWorkerUsed | webapp/src/lib/validator.ts:43-63 | a blank handle answers false; otherwise it fails exactly when unreachable and answers true exactly when some profile-partition item stores that handle |
| Validator.HandleCheckSeesOnlyPartition | webapp/src/lib/validator.ts:50-62 | two tables with the same profile partition give the same handle answer |
| Validator.HandleCheckFalseWithoutHandles | webapp/src/lib/validator.ts:43-63 | on a reachable table with no stored handle the check answers false for every handle |
| Validator.ReplayKeepsNoHandles | webapp/src/lib/dynamodb.ts:19-41 | no sequence of repository puts and deletes ever stores a Flex worker handle |
| Validator.HandleCheckNeverFiresOnRepositoryTables | webapp/src/lib/validator.ts:50-62 | on any reachable table built by repository writes, the handle check answers false |
| Validator.PhoneCheckSeesPut | webapp/src/lib/validator.ts:24-41 | after a profile is put, checking its phone number answers true |
| CheckRoute.CheckGet | webapp/src/app/api/profiles/check/route.ts:5-31 | 400 with "Check requires a field" exactly when both parameters are blank; 500 exactly when a check runs on an unreachable store; otherwise 200 with both flags as the two checks define them |
| CheckRoute.OneParameterLeavesOtherFlagFalse | webapp/src/app/api/profiles/check/route.ts:18-23 | with only one parameter given, the other flag of a 200 reply is false |
| ProfileForm.InitialState | webapp/src/components/ProfileForm.tsx:24-46 | a given profile is used as is; without one the phone number, name, callee number, Flex number and Flex handle start empty, callee details are on and Flex off, and each side starts with its listed language, code, friendly name, Deepgram transcription, Amazon speech and voice (Matthew-Generative, Lupe-Generative) |
| ProfileForm.UpdateField | webapp/src/components/ProfileForm.tsx:60-62 | the updated field reads the new value and every other field is unchanged |
| ProfileForm.UpdateFieldRestores | webapp/src/components/ProfileForm.tsx:60-62 | writing a mandatory field's old value back restores the whole profile |
| ProfileForm.FindLanguage | webapp/src/components/ProfileForm.tsx:68-69 | answers the first language whose code matches, and nothing exactly when none does |
| ProfileForm.DefaultVoice | webapp/src/components/ProfileForm.tsx:71-74 | the first listed voice for the translate code, or "" when there is no list, an empty list or a blank first voice |
| ProfileForm.LanguageChange | webapp/src/components/ProfileForm.tsx:64-96 | an unknown code changes nothing; a known one sets that side's language, code, friendly name and voice and leaves every other field unchanged |
| ProfileForm.LanguageChangeIdempotent | webapp/src/components/ProfileForm.tsx:77-95 | choosing the same language twice equals choosing it once |
| ProfileForm.LanguageChangesCommute | webapp/src/components/ProfileForm.tsx:77-95 | a source change and a callee change give the same state in either order |
| ProfileForm.HandleSubmit | webapp/src/components/ProfileForm.tsx:50-58 | onSubmit receives the current form data while the flag is raised; when onSubmit resolves the flag ends lowered and nothing is rethrown, when it rejects the flag ends lowered and the failure is rethrown; the form data is unchanged |
| ProfileForm.ResubmitBehavesAsFirst | webapp/src/components/ProfileForm.tsx:50-58 | after any first submission, resolved or rejected, a second submission runs exactly as it would have on the original form |
| ProfileForm.SubmitIgnoresFlagInFlight | webapp/src/components/ProfileForm.tsx:50-52 | the handler does not look at the flag before starting, so a submission while one is in flight runs like any other |
| FormikForm.MatchesPhonePattern | webapp/src/app/components/forms/profile-form-formik.tsx:15-17 | the one-pass matcher accepts a string exactly when it is an optional "+", a digit 1-9, and 1 to 14 further digits |
| FormikForm.ClassifyStep | webapp/src/app/components/forms/profile-form-formik.tsx:17 | the matcher's state after one more character is the state that describes the longer prefix |
| FormikForm.AcceptingIffPattern | webapp/src/app/components/forms/profile-form-formik.tsx:17 | the final matcher state accepts exactly the strings of the pattern |
| FormikForm.FieldError | webapp/src/app/components/forms/profile-form-formik.tsx:13-63 | the two checkboxes share one error, set exactly when neither callee details nor Flex is on; the phone number is in error exactly when it fails the pattern; every other required text field is in error exactly when it is empty; the callee number is in error exactly when callee details are on and it is empty; each Flex field is in error exactly when Flex is on and the field is absent or empty |
| FormikForm.IsValid | webapp/src/app/components/forms/profile-form-formik.tsx:13-63 | a profile the schema accepts has a phone number of the pattern and has callee details or Flex enabled |
| FormikForm.ValidIff | webapp/src/app/components/forms/profile-form-formik.tsx:13-63 | the schema accepts a profile exactly when the required fields are filled, the number matches, callee or Flex is on, and the fields each switch requires are filled |
| FormikForm.CalleeNumberFreeWithoutCallee | webapp/src/app/components/forms/profile-form-formik.tsx:32-36 | with callee details off, the callee number does not affect any field's error |
| FormikForm.FlexFieldsFreeWithoutFlex | webapp/src/app/components/forms/profile-form-formik.tsx:51-62 | with Flex off, the Flex number and handle do not affect any field's error |
| FormikForm.InitialValues | webapp/src/app/components/forms/profile-form-formik.tsx:134-138 | a given profile's fields override the defaults, absent Flex fields keep the defaults, and a blank Flex number falls back to the environment's number or "" |
| FormikForm.EditingStoredProfileStartsWithoutFlex | webapp/src/app/components/forms/profile-form-formik.tsx:134-138 | editing a profile read from the store starts with Flex off and no handle, whatever was saved |
| FormikForm.ReplyFlags | webapp/src/app/components/forms/profile-form-formik.tsx:102-103 | an error body reads as two false flags; a flags body reads as its own flags |
| FormikForm.ReplyFlagsOfRoute | webapp/src/app/components/forms/profile-form-formik.tsx:102-103 | the flags the form reads from the check route are set exactly when the store is reachable and the phone number (or handle) is given and taken; a 400 or 500 reply reads as two false flags |
| FormikForm.HandleSubmit | webapp/src/app/components/forms/profile-form-formik.tsx:91-130 | editing submits without a check; a new profile is blocked exactly when a flag is set, with one message per set flag; a failed fetch ends in a rethrow without calling onSubmit; otherwise the outcome follows onSubmit |
| FormikForm.HandleParameter | webapp/src/app/components/forms/profile-form-formik.tsx:98-100 | a present handle is sent unchanged; an absent one is sent as the text "undefined", which is not blank |
| FormikForm.AbsentHandleIsStillChecked | webapp/src/app/components/forms/profile-form-formik.tsx:98-103 | a new profile without a handle never gets the route's missing-field reply, even with an empty phone number, and its handle lookup is for the text "undefined" |
| FormikForm.SubmitNew | webapp/src/app/components/forms/profile-form-formik.tsx:97-125 | a new profile is blocked exactly when the store is reachable and its phone number or its handle parameter is taken, with the phone error exactly when the number is taken; otherwise onSubmit runs and decides the outcome; the check request itself never throws here |
| FormikForm.TakenPhoneNumberBlocksNewProfile | webapp/src/app/components/forms/profile-form-formik.tsx:97-123 | a new profile whose phone number is already stored is blocked with the phone-number message |
| FormikForm.HandleNeverBlocksOnRepositoryTables | webapp/src/app/components/forms/profile-form-formik.tsx:112-117 | on a table built by repository writes the handle message never appears |
| FormikForm.UnreachableStoreFailsOpen | webapp/src/app/components/forms/profile-form-formik.tsx:102-125 | when the store is unreachable, every new profile is submitted anyway |
| FormikForm.LanguageChange | webapp/src/app/components/forms/profile-form-formik.tsx:143-167 | an unknown code changes nothing; a known one sets that side's language, code, friendly name and default voice, and every other field keeps its value |
| FormikForm.LanguageChangeMatchesProfileForm | webapp/src/app/components/forms/profile-form-formik.tsx:143-167 | the four field updates give the same profile as the single spread update of the plain form |
| Sessions.SortSessions | webapp/src/app/components/pages/sessions.tsx:20-31 | the sorted copy has the input's length, is ordered by the chosen key and is a permutation of the input |
| Sessions.SortIsStable | webapp/src/app/components/pages/sessions.tsx:20-31 | sessions the comparator calls equal keep their relative order |
| Sessions.SortedOrderPerKey | webapp/src/app/components/pages/sessions.tsx:21-29 | in the result, "recent" puts later expiry first (missing counts as 0), and "caller" and "callee" order names and callee numbers ascending (missing counts as "") |
| Sessions.ConversationId | webapp/src/app/components/pages/sessions.tsx:100-103 | the link id is the parent's id whenever the session names a non-empty parent, and the session's own id otherwise; it is empty only when the own id is |
| Sessions.LegsShareConversation | webapp/src/app/components/pages/sessions.tsx:100-103 | a child leg, its sibling and the parent session all link to the same conversation |

## Left out

- AWS client construction, credentials, region and table-name configuration: these are environment, not logic. The table is a parameter.
- Any AWS failure is collapsed into a single `reachable` flag. Throttling, partial failures and retries are not distinguished.
- DynamoDB's own checks (an empty-string key rejected, a missing GSI attribute) are not modelled. The store accepts any key.
- Repository.ListProfiles: the query's pagination (one 1 MB page) and its ascending sk1 order are not modelled. The result is stated as a duplicate-free enumeration of the whole partition, in an unspecified order.
- Validator.CheckFlexWorkerUsed: states a match anywhere in the "profile" partition. The source reads only the first query page and filters after paging, so a match beyond the first 1 MB page answers false there.
- Repository.PutThenGet: assumes that a read sees the write just before it. The source's get and index queries are eventually consistent reads, so a read right after a write may miss it.
- Validator.PhoneCheckSeesPut: assumes, like Repository.PutThenGet, that the phone-number check sees the put just before it; with eventually consistent reads it may not.
- FormikForm.TakenPhoneNumberBlocksNewProfile: assumes, like Repository.PutThenGet, that the check sees the earlier write of the number; with eventually consistent reads a number written just before may not yet block.
- Repository.ItemToProfile: requires the item to carry every attribute the reverse mapping reads, with the right type. The code would produce `undefined` fields for a malformed item, and JavaScript `undefined` has no counterpart here.
- Repository.GetProfile: requires the stored item, if any, to be profile-shaped, for the same reason.
- Repository.ListProfiles: requires every item of the "profile" partition to be profile-shaped, for the same reason.
- ProfileForm.UpdateField: requires the value to have the field's kind (text or flag). The source's `any` value is not modelled.
- The `owner` argument that the profiles page passes to `listProfiles` is ignored by that zero-argument function, so it is not modelled.
- The check route's two concurrent lookups (`Promise.all`) are modelled as one step on one table snapshot. The race between a check and a later put is not modelled.
- `encodeURIComponent` on the client and the query-string decoding on the server are taken to cancel out. An absent handle is sent as the text "undefined", which the model keeps; the form's own values always carry a handle, so that request arises only for values handed to the submit handler from outside.
- `localeCompare` is modelled as lexicographic order by character code; locale collation rules are not modelled.
- JavaScript's `Array.prototype.sort` is modelled as a stable insertion sort. Any stable sort returns the same result for a comparator that is a total preorder, which the model proves `Le` is.
- `expireAt` is an integer here. Floating-point, `NaN` and missing-versus-zero distinctions beyond `|| 0` are not modelled.
- The LANGUAGES and VOICES tables are parameters rather than the shipped constant lists.
- Formik's own lifecycle is not modelled: running the schema before calling the submit handler, and setting `isSubmitting`. Only the handler's explicit `setSubmitting(false)` calls are modelled.
- The distinction between an absent key and a key holding `undefined` is not modelled, so `{...initialValues, ...profile}` treats an absent Flex field as "keep the default".
- Rendering, JSX, routing, middleware, the sessions data hook, the translation invoker and the voice server are outside this model.

=== FILE: check_route.dfy ===
/** GET /api/profiles/check: reads the `phoneNumber` and `handle` query
    parameters and answers with both uniqueness flags. */
module CheckRoute {
  import opened Common
  import opened Store
  import opened Repository
  import opened Validator

  datatype Body = Flags(phoneNumberUsed: bool, handleUsed: bool) | ErrorBody(error: string)

  datatype Response = Response(status: int, body: Body)

  const MissingFieldMessage := "Check requires a field"
  const FailureMessage := "Failed to check phone number"

  /** The handler. An absent query parameter is None. Both checks run when at
      least one parameter is non-empty; a failure of either is a 500. */
  function CheckGet(t: Table, phoneNumber: Option<string>, handle: Option<string>): (r: Response)
    ensures r.status == 200 || r.status == 400 || r.status == 500
    ensures r.status == 400 <==> IsBlank(phoneNumber) && IsBlank(handle)
    ensures r.status == 400 ==> r.body == ErrorBody(MissingFieldMessage)
    ensures r.status == 500 <==> !(IsBlank(phoneNumber) && IsBlank(handle)) && !t.reachable
    ensures r.status == 500 ==> r.body == ErrorBody(FailureMessage)
    ensures r.status == 200 ==> r.body.Flags?
    ensures r.status == 200 ==>
              (r.body.phoneNumberUsed <==> !IsBlank(phoneNumber) && ProfileKey(phoneNumber.value) in t.items)
    ensures r.status == 200 ==>
              (r.body.handleUsed <==> !IsBlank(handle) && HandleStored(t, handle.value))
  {
    if IsBlank(phoneNumber) && IsBlank(handle) then
      Response(400, ErrorBody(MissingFieldMessage))
    else
      match (CheckPhoneNumberUsed(t, phoneNumber), CheckFlexWorkerUsed(t, handle))
      case (Ok(phoneNumberUsed), Ok(handleUsed)) => Response(200, Flags(phoneNumberUsed, handleUsed))
      case _ => Response(500, ErrorBody(FailureMessage))
  }

  /** With one parameter supplied, the flag of the other is false. */
  lemma OneParameterLeavesOtherFlagFalse(t: Table, phoneNumber: Option<string>, handle: Option<string>)
    requires t.reachable
    requires IsBlank(phoneNumber) != IsBlank(handle)
    ensures CheckGet(t, phoneNumber, handle).status == 200
    ensures IsBlank(phoneNumber) ==> !CheckGet(t, phoneNumber, handle).body.phoneNumberUsed
    ensures IsBlank(handle) ==> !CheckGet(t, phoneNumber, handle).body.handleUsed
  {
  }
}

=== FILE: common.dfy ===
/** Small failure-compatible wrappers shared by every module of the model. */
module Common {

  /** A value that may be absent: JavaScript's `undefined`/`null`, or an
      optional property that an object does not carry. */
  datatype Option<T> = None | Some(value: T) {

    /** The carried value, or `default` when absent (JavaScript's `??`). */
    function GetOr(default: T): T {
      match this
      case Some(v) => v
      case None => default
    }
  }

  /** The outcome of a call that can reject (a rejected promise). */
  datatype Result<T, E> = Ok(value: T) | Err(error: E)

  /** JavaScript falsiness of an optional string: absent, null or empty. */
  predicate IsBlank(s: Option<string>) {
    s.None? || s.value == ""
  }

  /** JavaScript's `a || b` on optional strings. */
  function OrElse(s: Option<string>, fallback: string): (r: string)
    ensures IsBlank(s) ==> r == fallback
    ensures !IsBlank(s) ==> r == s.value && r != ""
  {
    if IsBlank(s) then fallback else s.value
  }
}

=== FILE: dynamodb.dfy ===
/** The profile repository: the mapping between profiles and store items, and
    the get / put / delete / list operations over the table. */
module Repository {
  import opened Common
  import opened Types
  import opened Store

  /** The value of both `sk` and `pk1` on every profile item. */
  const ProfileTag := "profile"

  /** The attributes a profile item carries besides its key. */
  const WrittenAttributes: set<AttrName> := {
    Pk1, Sk1, Prop(Name),
    Prop(CalleeDetails), Prop(CalleeLanguage), Prop(CalleeLanguageCode), Prop(CalleeLanguageFriendly),
    Prop(CalleeNumber), Prop(CalleeTranscriptionProvider), Prop(CalleeTtsProvider), Prop(CalleeVoice),
    Prop(SourceLanguage), Prop(SourceLanguageCode), Prop(SourceLanguageFriendly),
    Prop(SourceTranscriptionProvider), Prop(SourceTtsProvider), Prop(SourceVoice)
  }

  /** The Flex attributes the mapping never writes. */
  const FlexAttributes: set<AttrName> := {Prop(UseFlex), Prop(FlexNumber), Prop(FlexWorkerHandle)}

  /** The key of the profile item for a phone number. */
  function ProfileKey(phoneNumber: string): Key {
    (phoneNumber, ProfileTag)
  }

  predicate IsText(attrs: Attrs, f: Field) {
    Prop(f) in attrs && attrs[Prop(f)].S?
  }

  /** The item carries every attribute the reverse mapping reads, with its type. */
  predicate HasProfileShape(attrs: Attrs) {
    && IsText(attrs, Name)
    && Prop(CalleeDetails) in attrs && attrs[Prop(CalleeDetails)].BOOL?
    && IsText(attrs, CalleeLanguage) && IsText(attrs, CalleeLanguageCode)
    && IsText(attrs, CalleeLanguageFriendly) && IsText(attrs, CalleeNumber)
    && IsText(attrs, CalleeTranscriptionProvider) && IsText(attrs, CalleeTtsProvider)
    && IsText(attrs, CalleeVoice)
    && IsText(attrs, SourceLanguage) && IsText(attrs, SourceLanguageCode)
    && IsText(attrs, SourceLanguageFriendly) && IsText(attrs, SourceTranscriptionProvider)
    && IsText(attrs, SourceTtsProvider) && IsText(attrs, SourceVoice)
  }

  /** An item exactly as the forward mapping lays one out. */
  predicate IsCanonicalProfileItem(item: Item) {
    && item.sk == ProfileTag
    && item.attrs.Keys == WrittenAttributes
    && HasProfileShape(item.attrs)
    && item.attrs[Pk1] == S(ProfileTag)
    && item.attrs[Sk1] == S(item.pk)
  }

  /** profileToDynamoDB: the store item for a profile. */
  function ProfileToItem(p: UserProfile): (item: Item)
    ensures KeyOf(item) == ProfileKey(p.phoneNumber)
    ensures IsCanonicalProfileItem(item)
  {
    Item(p.phoneNumber, ProfileTag, map[
      Pk1 := S(ProfileTag),
      Sk1 := S(p.phoneNumber),
      Prop(Name) := S(p.name),
      Prop(CalleeDetails) := BOOL(p.calleeDetails),
      Prop(CalleeLanguage) := S(p.calleeLanguage),
      Prop(CalleeLanguageCode) := S(p.calleeLanguageCode),
      Prop(CalleeLanguageFriendly) := S(p.calleeLanguageFriendly),
      Prop(CalleeNumber) := S(p.calleeNumber),
      Prop(CalleeTranscriptionProvider) := S(p.calleeTranscriptionProvider),
      Prop(CalleeTtsProvider) := S(p.calleeTtsProvider),
      Prop(CalleeVoice) := S(p.calleeVoice),
      Prop(SourceLanguage) := S(p.sourceLanguage),
      Prop(SourceLanguageCode) := S(p.sourceLanguageCode),
      Prop(SourceLanguageFriendly) := S(p.sourceLanguageFriendly),
      Prop(SourceTranscriptionProvider) := S(p.sourceTranscriptionProvider),
      Prop(SourceTtsProvider) := S(p.sourceTtsProvider),
      Prop(SourceVoice) := S(p.sourceVoice)
    ])
  }

  /** The mapping writes the fixed index key attributes and none of the Flex
      attributes. */
  lemma ProfileItemAttributes(p: UserProfile)
    ensures InPartition(ProfileToItem(p).attrs, ProfileTag)
    ensures ProfileToItem(p).attrs[Sk1] == S(p.phoneNumber)
    ensures ProfileToItem(p).attrs.Keys !! FlexAttributes
  {
  }

  /** dynamoDBToProfile: the profile an item describes. The phone number comes
      from the partition key; the Flex properties are never read. */
  function ItemToProfile(item: Item): (p: UserProfile)
    requires HasProfileShape(item.attrs)
    ensures p.phoneNumber == item.pk
    ensures p.useFlex.None? && p.flexNumber.None? && p.flexWorkerHandle.None?
  {
    var a := item.attrs;
    UserProfile(
      item.pk,
      a[Prop(Name)].s,
      a[Prop(SourceLanguage)].s,
      a[Prop(SourceLanguageCode)].s,
      a[Prop(SourceLanguageFriendly)].s,
      a[Prop(SourceTranscriptionProvider)].s,
      a[Prop(SourceTtsProvider)].s,
      a[Prop(SourceVoice)].s,
      a[Prop(CalleeDetails)].b,
      a[Prop(CalleeNumber)].s,
      a[Prop(CalleeLanguage)].s,
      a[Prop(CalleeLanguageCode)].s,
      a[Prop(CalleeLanguageFriendly)].s,
      a[Prop(CalleeTranscriptionProvider)].s,
      a[Prop(CalleeTtsProvider)].s,
      a[Prop(CalleeVoice)].s,
      None, None, None)
  }

  /** The profile value an attribute stands for: a string attribute is a text
      field, a boolean one a checkbox. */
  function AttrValue(a: Attr): Option<Value> {
    match a
    case S(s) => Some(Text(s))
    case BOOL(b) => Some(Flag(b))
    case N(_) => None
  }

  /** Each mapped field is written under its own attribute, holding that
      field's value. */
  lemma ProfileToItemFieldValues(p: UserProfile)
    ensures forall f :: !IsOptionalField(f) && f != PhoneNumber ==>
              Prop(f) in ProfileToItem(p).attrs && AttrValue(ProfileToItem(p).attrs[Prop(f)]) == Read(p, f)
  {
    var item := ProfileToItem(p);
    ItemToProfileFieldValues(item);
    RoundTripKeepsMappedFields(p);
  }

  /** Each mapped field of a decoded profile is read from its own attribute. */
  lemma ItemToProfileFieldValues(item: Item)
    requires HasProfileShape(item.attrs)
    ensures forall f :: !IsOptionalField(f) && f != PhoneNumber ==>
              Prop(f) in item.attrs && Read(ItemToProfile(item), f) == AttrValue(item.attrs[Prop(f)])
  {
  }

  /** What the store keeps of a profile: everything but the Flex fields. */
  function WithoutFlex(p: UserProfile): UserProfile {
    p.(useFlex := None, flexNumber := None, flexWorkerHandle := None)
  }

  /** Writing a profile and reading it back keeps the sixteen mapped fields and
      loses the three Flex fields. */
  lemma RoundTripKeepsMappedFields(p: UserProfile)
    ensures ItemToProfile(ProfileToItem(p)) == WithoutFlex(p)
    ensures forall f :: !IsOptionalField(f) ==> Read(ItemToProfile(ProfileToItem(p)), f) == Read(p, f)
    ensures forall f :: IsOptionalField(f) ==> Read(ItemToProfile(ProfileToItem(p)), f).None?
  {
    var q := ItemToProfile(ProfileToItem(p));
    forall f ensures !IsOptionalField(f) ==> Read(q, f) == Read(p, f) {
    }
  }

  /** The round trip is the identity exactly on profiles without Flex fields. */
  lemma RoundTripIdentityIff(p: UserProfile)
    ensures ItemToProfile(ProfileToItem(p)) == p
        <==> p.useFlex.None? && p.flexNumber.None? && p.flexWorkerHandle.None?
  {
  }

  /** In the other direction, re-encoding a decoded item gives the item back,
      provided it is laid out as the forward mapping lays items out. */
  lemma ItemRoundTrip(item: Item)
    requires IsCanonicalProfileItem(item)
    ensures ProfileToItem(ItemToProfile(item)) == item
  {
  }

  /** putProfile: a full overwrite of the item at the profile's key. */
  function PutProfile(t: Table, p: UserProfile): (r: Result<Table, StoreError>)
    ensures r.Ok? <==> t.reachable
    ensures r.Ok? ==> r.value.reachable
    ensures r.Ok? ==> ProfileKey(p.phoneNumber) in r.value.items
                      && r.value.items[ProfileKey(p.phoneNumber)] == ProfileToItem(p).attrs
    ensures r.Ok? ==> forall k :: k != ProfileKey(p.phoneNumber) ==>
                        (k in r.value.items <==> k in t.items)
                        && (k in t.items ==> r.value.items[k] == t.items[k])
  {
    Put(t, ProfileToItem(p))
  }

  /** The item stored for `phoneNumber`, if any, is laid out as a profile. */
  predicate ProfileShapedAt(t: Table, phoneNumber: string) {
    ProfileKey(phoneNumber) in t.items ==> HasProfileShape(t.items[ProfileKey(phoneNumber)])
  }

  /** getProfile: the decoded item at (phoneNumber, "profile"), or None. */
  function GetProfile(t: Table, phoneNumber: string): (r: Result<Option<UserProfile>, StoreError>)
    requires ProfileShapedAt(t, phoneNumber)
    ensures r.Ok? <==> t.reachable
    ensures r == Ok(None) <==> t.reachable && ProfileKey(phoneNumber) !in t.items
    ensures r.Ok? && r.value.Some? ==> r.value.value.phoneNumber == phoneNumber
    ensures r.Ok? && r.value.Some? ==>
              ProfileKey(phoneNumber) in t.items
              && r.value.value == ItemToProfile(Item(phoneNumber, ProfileTag, t.items[ProfileKey(phoneNumber)]))
  {
    match Get(t, ProfileKey(phoneNumber))
    case Err(e) => Err(e)
    case Ok(found) =>
      match found
      case None => Ok(None)
      case Some(item) => Ok(Some(ItemToProfile(item)))
  }

  /** deleteProfile: removes the item at (phoneNumber, "profile") and nothing else. */
  function DeleteProfile(t: Table, phoneNumber: string): (r: Result<Table, StoreError>)
    ensures r.Ok? <==> t.reachable
    ensures r.Ok? ==> r.value.reachable && ProfileKey(phoneNumber) !in r.value.items
    ensures r.Ok? ==> forall k :: k != ProfileKey(phoneNumber) ==>
                        (k in r.value.items <==> k in t.items)
                        && (k in t.items ==> r.value.items[k] == t.items[k])
  {
    Delete(t, ProfileKey(phoneNumber))
  }

  /** After a put, a get of the same phone number returns the mapped profile. */
  lemma PutThenGet(t: Table, p: UserProfile)
    requires t.reachable
    ensures PutProfile(t, p).Ok?
    ensures ProfileShapedAt(PutProfile(t, p).value, p.phoneNumber)
    ensures GetProfile(PutProfile(t, p).value, p.phoneNumber) == Ok(Some(WithoutFlex(p)))
  {
    var t' := PutProfile(t, p).value;
    assert Item(p.phoneNumber, ProfileTag, t'.items[ProfileKey(p.phoneNumber)]) == ProfileToItem(p);
    RoundTripKeepsMappedFields(p);
  }

  /** A put replaces the previous profile entirely: nothing of the earlier
      write survives a later write of the same phone number. */
  lemma PutOverwrites(t: Table, p: UserProfile, q: UserProfile)
    requires t.reachable && p.phoneNumber == q.phoneNumber
    ensures PutProfile(t, p).Ok?
    ensures PutProfile(PutProfile(t, p).value, q) == PutProfile(t, q)
  {
    var k := ProfileKey(p.phoneNumber);
    assert t.items[k := ProfileToItem(p).attrs][k := ProfileToItem(q).attrs]
        == t.items[k := ProfileToItem(q).attrs];
  }

  /** After a delete, the phone number has no profile. */
  lemma DeleteThenGet(t: Table, phoneNumber: string)
    requires t.reachable
    ensures DeleteProfile(t, phoneNumber).Ok?
    ensures GetProfile(DeleteProfile(t, phoneNumber).value, phoneNumber) == Ok(None)
  {
  }

  /** Writing or deleting one phone number's profile leaves the answer of a
      get for any other phone number unchanged. */
  lemma WritesLeaveOtherProfiles(t: Table, p: UserProfile, gone: string, n: string)
    requires t.reachable && ProfileShapedAt(t, n)
    requires n != p.phoneNumber && n != gone
    ensures ProfileShapedAt(PutProfile(t, p).value, n)
    ensures GetProfile(PutProfile(t, p).value, n) == GetProfile(t, n)
    ensures ProfileShapedAt(DeleteProfile(t, gone).value, n)
    ensures GetProfile(DeleteProfile(t, gone).value, n) == GetProfile(t, n)
  {
  }

  /** Every item of the profile partition is laid out as a profile. */
  predicate PartitionShaped(t: Table) {
    forall k :: k in t.items && InPartition(t.items[k], ProfileTag) ==> HasProfileShape(t.items[k])
  }

  lemma PartitionItemsAreShaped(t: Table, it: Item)
    requires PartitionShaped(t) && it in PartitionItems(t, ProfileTag)
    ensures HasProfileShape(it.attrs)
  {
  }

  /** listProfiles: the decoded image of exactly the items of the `pk1 = "profile"`
      index partition, each once. `order` names the item behind each entry; the
      order itself is left open. */
  method ListProfiles(t: Table) returns (r: Result<seq<UserProfile>, StoreError>, ghost order: seq<Item>)
    requires PartitionShaped(t)
    ensures r.Ok? <==> t.reachable
    ensures r.Ok? ==> |r.value| == |order|
    ensures r.Ok? ==> forall i :: 0 <= i < |order| ==>
              HasProfileShape(order[i].attrs) && r.value[i] == ItemToProfile(order[i])
    ensures r.Ok? ==> forall i, j :: 0 <= i < j < |order| ==> order[i] != order[j]
    ensures r.Ok? ==> forall it :: it in order <==> it in PartitionItems(t, ProfileTag)
    ensures r.Ok? ==> (r.value == [] <==> PartitionItems(t, ProfileTag) == {})
  {
    var q := Query(t, ProfileTag);
    if q.Err? {
      return Err(q.error), [];
    }
    var all := q.value;
    var remaining := all;
    var out: seq<UserProfile> := [];
    order := [];
    while remaining != {}
      invariant remaining <= all
      invariant |out| == |order|
      invariant forall i :: 0 <= i < |order| ==>
                  order[i] in all && order[i] !in remaining
                  && HasProfileShape(order[i].attrs) && out[i] == ItemToProfile(order[i])
      invariant forall i, j :: 0 <= i < j < |order| ==> order[i] != order[j]
      invariant forall it :: it in all <==> it in order || it in remaining
      decreases remaining
    {
      var it :| it in remaining;
      PartitionItemsAreShaped(t, it);
      out := out + [ItemToProfile(it)];
      order := order + [it];
      remaining := remaining - {it};
    }
    if out != [] {
      assert order[0] in all;
    }
    r := Ok(out);
  }
}

=== FILE: profile_form.dfy ===
/** The stand-alone profile form: its initial state, single-field updates,
    the language picker and the submitting flag. */
module ProfileForm {
  import opened Common
  import opened Types

  /** The record a new profile starts from. */
  const DefaultProfile := UserProfile(
    "", "",
    "en-US", "en", "English - United States", "Deepgram", "Amazon", "Matthew-Generative",
    true, "",
    "es-MX", "es-MX", "Spanish - Mexico", "Deepgram", "Amazon", "Lupe-Generative",
    Some(false), Some(""), Some(""))

  /** The form's initial state: the given profile, or the default record. */
  function InitialState(profile: Option<UserProfile>): (r: UserProfile)
    ensures profile.Some? ==> r == profile.value
    ensures profile.None? ==> r.phoneNumber == "" && r.name == ""
    ensures profile.None? ==> r.calleeDetails && r.useFlex == Some(false)
    ensures profile.None? ==> r.calleeLanguage == "es-MX" && r.calleeLanguageCode == "es-MX"
    ensures profile.None? ==> r.sourceLanguage == "en-US" && r.sourceLanguageCode == "en"
    ensures profile.None? ==> r.calleeNumber == "" && r.flexNumber == Some("") && r.flexWorkerHandle == Some("")
    ensures profile.None? ==> r.sourceLanguageFriendly == "English - United States"
    ensures profile.None? ==> r.calleeLanguageFriendly == "Spanish - Mexico"
    ensures profile.None? ==> r.sourceTranscriptionProvider == "Deepgram" && r.sourceTtsProvider == "Amazon"
    ensures profile.None? ==> r.calleeTranscriptionProvider == "Deepgram" && r.calleeTtsProvider == "Amazon"
    ensures profile.None? ==> r.sourceVoice == "Matthew-Generative" && r.calleeVoice == "Lupe-Generative"
  {
    profile.GetOr(DefaultProfile)
  }

  /** updateField: sets one field and leaves every other field as it was. */
  function UpdateField(p: UserProfile, f: Field, v: Value): (r: UserProfile)
    requires Fits(f, v)
    ensures Read(r, f) == Some(v)
    ensures forall g :: g != f ==> Read(r, g) == Read(p, g)
  {
    match f
    case PhoneNumber => p.(phoneNumber := v.s)
    case Name => p.(name := v.s)
    case SourceLanguage => p.(sourceLanguage := v.s)
    case SourceLanguageCode => p.(sourceLanguageCode := v.s)
    case SourceLanguageFriendly => p.(sourceLanguageFriendly := v.s)
    case SourceTranscriptionProvider => p.(sourceTranscriptionProvider := v.s)
    case SourceTtsProvider => p.(sourceTtsProvider := v.s)
    case SourceVoice => p.(sourceVoice := v.s)
    case CalleeDetails => p.(calleeDetails := v.b)
    case CalleeNumber => p.(calleeNumber := v.s)
    case CalleeLanguage => p.(calleeLanguage := v.s)
    case CalleeLanguageCode => p.(calleeLanguageCode := v.s)
    case CalleeLanguageFriendly => p.(calleeLanguageFriendly := v.s)
    case CalleeTranscriptionProvider => p.(calleeTranscriptionProvider := v.s)
    case CalleeTtsProvider => p.(calleeTtsProvider := v.s)
    case CalleeVoice => p.(calleeVoice := v.s)
    case UseFlex => p.(useFlex := Some(v.b))
    case FlexNumber => p.(flexNumber := Some(v.s))
    case FlexWorkerHandle => p.(flexWorkerHandle := Some(v.s))
  }

  /** An update is undone by writing the old value back. */
  lemma UpdateFieldRestores(p: UserProfile, f: Field, v: Value)
    requires Fits(f, v) && !IsOptionalField(f)
    ensures UpdateField(UpdateField(p, f, v), f, Read(p, f).value) == p
  {
  }

  /** The language-table lookup: the first entry whose code is `code`, if any. */
  function FindLanguage(languages: seq<Language>, code: string): (r: Option<Language>)
    ensures r.None? <==> forall i :: 0 <= i < |languages| ==> languages[i].code != code
    ensures r.Some? ==> r.value.code == code
    ensures r.Some? ==> exists i :: 0 <= i < |languages| && languages[i] == r.value
                          && forall j :: 0 <= j < i ==> languages[j].code != code
  {
    if languages == [] then None
    else if languages[0].code == code then Some(languages[0])
    else
      var rest := FindLanguage(languages[1..], code);
      assert rest.Some? ==> exists i :: 1 <= i < |languages| && languages[i] == rest.value
                              && forall j :: 0 <= j < i ==> languages[j].code != code by {
        if rest.Some? {
          var i :| 0 <= i < |languages[1..]| && languages[1..][i] == rest.value
                   && forall j :: 0 <= j < i ==> languages[1..][j].code != code;
          assert languages[i + 1] == rest.value;
          assert forall j :: 0 <= j < i + 1 ==> languages[j].code != code by {
            forall j | 0 <= j < i + 1 ensures languages[j].code != code {
              if j > 0 { assert languages[j] == languages[1..][j - 1]; }
            }
          }
        }
      }
      rest
  }

  /** The default voice for a language: the first voice listed for its
      translate code, or the empty string when none is listed. */
  function DefaultVoice(voices: map<string, seq<string>>, translateCode: string): (v: string)
    ensures v != "" ==> translateCode in voices && v in voices[translateCode]
    ensures translateCode in voices && voices[translateCode] != [] ==> v == voices[translateCode][0]
    ensures translateCode !in voices || voices[translateCode] == [] ==> v == ""
  {
    if translateCode in voices && |voices[translateCode]| > 0 then voices[translateCode][0] else ""
  }

  /** The four fields a language choice sets on each side. */
  function LanguageField(side: Side): Field {
    match side case Source => SourceLanguage case Callee => CalleeLanguage
  }
  function CodeField(side: Side): Field {
    match side case Source => SourceLanguageCode case Callee => CalleeLanguageCode
  }
  function FriendlyField(side: Side): Field {
    match side case Source => SourceLanguageFriendly case Callee => CalleeLanguageFriendly
  }
  function VoiceField(side: Side): Field {
    match side case Source => SourceVoice case Callee => CalleeVoice
  }
  function LanguageFields(side: Side): set<Field> {
    {LanguageField(side), CodeField(side), FriendlyField(side), VoiceField(side)}
  }

  /** handleLanguageChange: for a known code, sets the chosen side's language,
      code, friendly name and voice in one update; an unknown code changes nothing. */
  function LanguageChange(p: UserProfile, languages: seq<Language>, voices: map<string, seq<string>>,
                          side: Side, code: string): (r: UserProfile)
    ensures FindLanguage(languages, code).None? ==> r == p
    ensures forall f :: f !in LanguageFields(side) ==> Read(r, f) == Read(p, f)
    ensures FindLanguage(languages, code).Some? ==>
              var l := FindLanguage(languages, code).value;
              && Read(r, LanguageField(side)) == Some(Text(l.code))
              && Read(r, CodeField(side)) == Some(Text(l.translateCode))
              && Read(r, FriendlyField(side)) == Some(Text(l.friendly))
              && Read(r, VoiceField(side)) == Some(Text(DefaultVoice(voices, l.translateCode)))
  {
    match FindLanguage(languages, code)
    case None => p
    case Some(l) =>
      var voice := DefaultVoice(voices, l.translateCode);
      match side
      case Source =>
        p.(sourceLanguage := l.code, sourceLanguageCode := l.translateCode,
           sourceLanguageFriendly := l.friendly, sourceVoice := voice)
      case Callee =>
        p.(calleeLanguage := l.code, calleeLanguageCode := l.translateCode,
           calleeLanguageFriendly := l.friendly, calleeVoice := voice)
  }

  /** Choosing the same language twice is the same as choosing it once. */
  lemma LanguageChangeIdempotent(p: UserProfile, languages: seq<Language>, voices: map<string, seq<string>>,
                                 side: Side, code: string)
    ensures LanguageChange(LanguageChange(p, languages, voices, side, code), languages, voices, side, code)
         == LanguageChange(p, languages, voices, side, code)
  {
  }

  /** Choices on the two sides are independent: their order does not matter. */
  lemma LanguageChangesCommute(p: UserProfile, languages: seq<Language>, voices: map<string, seq<string>>,
                               sourceCode: string, calleeCode: string)
    ensures LanguageChange(LanguageChange(p, languages, voices, Source, sourceCode), languages, voices, Callee, calleeCode)
         == LanguageChange(LanguageChange(p, languages, voices, Callee, calleeCode), languages, voices, Source, sourceCode)
  {
  }

  /** The form's data together with its submitting flag. */
  datatype FormState = FormState(formData: UserProfile, isSubmitting: bool)

  /** How a block of statements completes: normally, or by throwing. */
  datatype Completion = Normal | Threw

  /** One submission: what was handed to `onSubmit`, the flag while it ran,
      the state afterwards and whether a failure propagated to the caller. */
  datatype SubmitRun = SubmitRun(submitted: UserProfile, submittingDuring: bool, after: FormState, rethrown: bool)

  /** The statement before the `try` block: raise the submitting flag. */
  function RaiseFlag(s: FormState): FormState {
    s.(isSubmitting := true)
  }

  /** The `try` block: the callback receives the current form data and either
      resolves or rejects; it does not touch the form's own state. */
  function AwaitOnSubmit(s: FormState, onSubmitSucceeds: bool): (FormState, Completion) {
    (s, if onSubmitSucceeds then Normal else Threw)
  }

  /** The `finally` block: lower the submitting flag. */
  function LowerFlag(s: FormState): FormState {
    s.(isSubmitting := false)
  }

  /** handleSubmit: raises the flag, runs the `try` block, then runs the
      `finally` block on both of its completions; a rejection is rethrown after
      the `finally` block. `onSubmitSucceeds` is the outcome of the caller's
      callback. */
  function HandleSubmit(s: FormState, onSubmitSucceeds: bool): (run: SubmitRun)
    ensures run.submitted == s.formData && run.submittingDuring
    ensures onSubmitSucceeds ==> !run.after.isSubmitting && !run.rethrown
    ensures !onSubmitSucceeds ==> !run.after.isSubmitting && run.rethrown
    ensures run.after.formData == s.formData
  {
    var raised := RaiseFlag(s);
    var (afterTry, completion) := AwaitOnSubmit(raised, onSubmitSucceeds);
    match completion
    case Normal => SubmitRun(raised.formData, raised.isSubmitting, LowerFlag(afterTry), false)
    case Threw => SubmitRun(raised.formData, raised.isSubmitting, LowerFlag(afterTry), true)
  }

  /** Whatever the first submission's outcome, the form is left ready for the
      next one: a second submission sends the same data and behaves exactly as
      if the first had never happened. */
  lemma ResubmitBehavesAsFirst(s: FormState, firstSucceeds: bool, secondSucceeds: bool)
    ensures HandleSubmit(HandleSubmit(s, firstSucceeds).after, secondSucceeds) == HandleSubmit(s, secondSucceeds)
  {
  }

  /** The handler does not consult the flag before starting: a submission
      made while one is still in flight runs exactly like any other. */
  lemma SubmitIgnoresFlagInFlight(s: FormState, onSubmitSucceeds: bool)
    ensures HandleSubmit(s.(isSubmitting := true), onSubmitSucceeds)
         == HandleSubmit(s.(isSubmitting := false), onSubmitSucceeds)
  {
  }
}

=== FILE: profile_form_formik.dfy ===
/** The Formik-driven profile form: the validation schema as a predicate over
    a profile, the initial-value merge, the submit gate that consults the
    uniqueness endpoint for new profiles, and the language picker. */
module FormikForm {
  import opened Common
  import opened Types
  import opened Store
  import opened Repository
  import opened Validator
  import opened CheckRoute
  import PF = ProfileForm

  // ---------------------------------------------------------------------
  // The phone-number pattern  ^\+?[1-9]\d{1,14}$
  // ---------------------------------------------------------------------

  predicate IsDigit(c: char) {
    '0' <= c <= '9'
  }

  /** All characters of `d` are digits. */
  predicate AllDigits(d: string) {
    forall i :: 0 <= i < |d| ==> IsDigit(d[i])
  }

  /** The input without its optional leading '+'. */
  function StripPlus(s: string): string {
    if |s| > 0 && s[0] == '+' then s[1..] else s
  }

  /** An optional '+', then a first digit 1-9 and 2 to 15 digits in all. */
  predicate PhonePattern(s: string) {
    var d := StripPlus(s);
    && 2 <= |d| <= 15
    && '1' <= d[0] <= '9'
    && AllDigits(d)
  }

  /** The states of a left-to-right matcher for the pattern. */
  datatype PhoneState = Start | Signed | Digits(count: nat) | Dead

  function Step(st: PhoneState, c: char): PhoneState {
    match st
    case Start => if c == '+' then Signed else if '1' <= c <= '9' then Digits(1) else Dead
    case Signed => if '1' <= c <= '9' then Digits(1) else Dead
    case Digits(n) => if IsDigit(c) && n < 15 then Digits(n + 1) else Dead
    case Dead => Dead
  }

  predicate Accepting(st: PhoneState) {
    st.Digits? && st.count >= 2
  }

  /** The state the matcher is in after reading `s`, described directly. */
  function Classify(s: string): PhoneState {
    if s == [] then Start
    else if s == ['+'] then Signed
    else
      var d := StripPlus(s);
      if '1' <= d[0] <= '9' && |d| <= 15 && AllDigits(d) then Digits(|d|) else Dead
  }

  lemma StripPlusAppend(s: string, c: char)
    requires s != []
    ensures StripPlus(s + [c]) == StripPlus(s) + [c]
  {
  }

  lemma AllDigitsAppend(d: string, c: char)
    ensures AllDigits(d + [c]) <==> AllDigits(d) && IsDigit(c)
  {
    assert forall i :: 0 <= i < |d| ==> (d + [c])[i] == d[i];
    assert (d + [c])[|d|] == c;
  }

  /** Reading one more character moves the matcher exactly as `Step` says. */
  lemma ClassifyStep(s: string, c: char)
    ensures Classify(s + [c]) == Step(Classify(s), c)
  {
    if s == [] {
      assert s + [c] == [c];
    } else if s == ['+'] {
      assert StripPlus(s + [c]) == [c];
    } else {
      assert |s + [c]| >= 2;
      StripPlusAppend(s, c);
      var d := StripPlus(s);
      assert |d| >= 1;
      var d' := d + [c];
      assert d'[0] == d[0];
      AllDigitsAppend(d, c);
      assert Classify(s) == (if '1' <= d[0] <= '9' && |d| <= 15 && AllDigits(d) then Digits(|d|) else Dead);
      assert Classify(s + [c]) == (if '1' <= d'[0] <= '9' && |d'| <= 15 && AllDigits(d') then Digits(|d'|) else Dead);
    }
  }

  lemma AcceptingIffPattern(s: string)
    ensures Accepting(Classify(s)) <==> PhonePattern(s)
  {
  }

  /** The phone-number format test: runs the matcher over the input once. */
  method MatchesPhonePattern(s: string) returns (ok: bool)
    ensures ok <==> PhonePattern(s)
  {
    var st := Start;
    var i := 0;
    while i < |s|
      invariant 0 <= i <= |s|
      invariant st == Classify(s[..i])
    {
      ClassifyStep(s[..i], s[i]);
      assert s[..i + 1] == s[..i] + [s[i]];
      st := Step(st, s[i]);
      i := i + 1;
    }
    assert s[..|s|] == s;
    AcceptingIffPattern(s);
    ok := Accepting(st);
  }

  // ---------------------------------------------------------------------
  // The validation schema
  // ---------------------------------------------------------------------

  /** The Flex checkbox is ticked (strictly true, not merely present). */
  predicate FlexOn(p: UserProfile) {
    p.useFlex == Some(true)
  }

  /** The schema reports an error on field `f`. A required text rule fails
      exactly on an empty (or, for an optional field, absent) value; the
      "at-least-one" test sits on both checkboxes, so it fails on both at once;
      the callee number and the Flex fields are required exactly while their
      switch is on. */
  function FieldError(p: UserProfile, f: Field): (err: bool)
    ensures IsFlagField(f) ==> (err <==> !p.calleeDetails && !FlexOn(p))
    ensures f == PhoneNumber ==> (err <==> !PhonePattern(p.phoneNumber))
    ensures !IsFlagField(f) && !IsOptionalField(f) && f != PhoneNumber && f != CalleeNumber ==>
              (err <==> Read(p, f) == Some(Text("")))
    ensures f == CalleeNumber ==> (err <==> p.calleeDetails && p.calleeNumber == "")
    ensures f == FlexNumber ==> (err <==> FlexOn(p) && IsBlank(p.flexNumber))
    ensures f == FlexWorkerHandle ==> (err <==> FlexOn(p) && IsBlank(p.flexWorkerHandle))
  {
    match f
    case Name => p.name == ""
    case PhoneNumber => p.phoneNumber == "" || !PhonePattern(p.phoneNumber)
    case SourceLanguage => p.sourceLanguage == ""
    case SourceLanguageCode => p.sourceLanguageCode == ""
    case SourceLanguageFriendly => p.sourceLanguageFriendly == ""
    case SourceTranscriptionProvider => p.sourceTranscriptionProvider == ""
    case SourceTtsProvider => p.sourceTtsProvider == ""
    case SourceVoice => p.sourceVoice == ""
    case CalleeDetails => !(p.calleeDetails || FlexOn(p))
    case CalleeNumber => p.calleeDetails && p.calleeNumber == ""
    case CalleeLanguage => p.calleeLanguage == ""
    case CalleeLanguageCode => p.calleeLanguageCode == ""
    case CalleeLanguageFriendly => p.calleeLanguageFriendly == ""
    case CalleeTranscriptionProvider => p.calleeTranscriptionProvider == ""
    case CalleeTtsProvider => p.calleeTtsProvider == ""
    case CalleeVoice => p.calleeVoice == ""
    case UseFlex => !(FlexOn(p) || p.calleeDetails)
    case FlexNumber => FlexOn(p) && IsBlank(p.flexNumber)
    case FlexWorkerHandle => FlexOn(p) && IsBlank(p.flexWorkerHandle)
  }

  /** The schema accepts the profile: no field has an error. */
  function IsValid(p: UserProfile): (ok: bool)
    ensures ok ==> PhonePattern(p.phoneNumber)
    ensures ok ==> p.calleeDetails || FlexOn(p)
  {
    var ok := forall f :: !FieldError(p, f);
    assert ok ==> !FieldError(p, PhoneNumber) && !FieldError(p, CalleeDetails);
    ok
  }

  /** Every required text field other than the phone number is filled. */
  predicate RequiredFilled(p: UserProfile) {
    && p.name != ""
    && p.sourceLanguage != "" && p.sourceLanguageCode != "" && p.sourceLanguageFriendly != ""
    && p.sourceTranscriptionProvider != "" && p.sourceTtsProvider != "" && p.sourceVoice != ""
    && p.calleeLanguage != "" && p.calleeLanguageCode != "" && p.calleeLanguageFriendly != ""
    && p.calleeTranscriptionProvider != "" && p.calleeTtsProvider != "" && p.calleeVoice != ""
  }

  /** The checkbox rules: one channel is on, and each switch's fields are filled. */
  predicate SwitchRulesHold(p: UserProfile) {
    && (p.calleeDetails || p.useFlex == Some(true))
    && (p.calleeDetails ==> p.calleeNumber != "")
    && (p.useFlex == Some(true) ==> !IsBlank(p.flexNumber) && !IsBlank(p.flexWorkerHandle))
  }

  /** The schema's rules written out on the record. */
  predicate RulesHold(p: UserProfile) {
    RequiredFilled(p) && PhonePattern(p.phoneNumber) && SwitchRulesHold(p)
  }

  /** A profile with no field error has every required text field filled. */
  lemma ValidFillsRequired(p: UserProfile)
    requires IsValid(p)
    ensures RequiredFilled(p)
  {
    assert !FieldError(p, Name);
    assert !FieldError(p, SourceLanguage) && !FieldError(p, SourceLanguageCode);
    assert !FieldError(p, SourceLanguageFriendly) && !FieldError(p, SourceTranscriptionProvider);
    assert !FieldError(p, SourceTtsProvider) && !FieldError(p, SourceVoice);
    assert !FieldError(p, CalleeLanguage) && !FieldError(p, CalleeLanguageCode);
    assert !FieldError(p, CalleeLanguageFriendly) && !FieldError(p, CalleeTranscriptionProvider);
    assert !FieldError(p, CalleeTtsProvider) && !FieldError(p, CalleeVoice);
  }

  /** A profile with no field error meets the checkbox rules. */
  lemma ValidMeetsSwitches(p: UserProfile)
    requires IsValid(p)
    ensures SwitchRulesHold(p)
  {
    assert !FieldError(p, CalleeDetails) && !FieldError(p, CalleeNumber);
    assert !FieldError(p, FlexNumber) && !FieldError(p, FlexWorkerHandle);
  }

  /** A profile with no field error satisfies every rule. */
  lemma ValidImpliesRules(p: UserProfile)
    requires IsValid(p)
    ensures RulesHold(p)
  {
    ValidFillsRequired(p);
    ValidMeetsSwitches(p);
  }

  /** A profile satisfying every rule has no field error. */
  lemma RulesImplyValid(p: UserProfile)
    requires RulesHold(p)
    ensures IsValid(p)
  {
  }

  /** The field-by-field schema accepts exactly the profiles satisfying every rule. */
  lemma ValidIff(p: UserProfile)
    ensures IsValid(p) <==> RulesHold(p)
  {
    if IsValid(p) {
      ValidImpliesRules(p);
    }
    if RulesHold(p) {
      RulesImplyValid(p);
    }
  }

  /** Without callee details the callee number is unconstrained. */
  lemma CalleeNumberFreeWithoutCallee(p: UserProfile, number: string)
    requires !p.calleeDetails
    ensures forall f :: FieldError(p.(calleeNumber := number), f) == FieldError(p, f)
  {
  }

  /** Without Flex the Flex number and worker handle are unconstrained. */
  lemma FlexFieldsFreeWithoutFlex(p: UserProfile, number: Option<string>, handle: Option<string>)
    requires p.useFlex != Some(true)
    ensures forall f :: FieldError(p.(flexNumber := number, flexWorkerHandle := handle), f) == FieldError(p, f)
  {
  }

  // ---------------------------------------------------------------------
  // Initial values
  // ---------------------------------------------------------------------

  /** The form's defaults; `envFlexNumber` is the configured Flex number, if any. */
  function Defaults(envFlexNumber: Option<string>): UserProfile {
    UserProfile(
      "", "",
      "en-US", "en", "English - United States", "Deepgram", "Amazon", "Matthew-Generative",
      true, "",
      "es-MX", "es", "Spanish - Mexico", "Deepgram", "Amazon", "Lupe-Generative",
      Some(false), Some(envFlexNumber.GetOr("")), Some(""))
  }

  /** The form's starting values: the defaults overlaid with the given
      profile's properties (an absent property keeps its default), except that
      an empty or absent Flex number falls back to the default one. */
  function InitialValues(profile: Option<UserProfile>, envFlexNumber: Option<string>): (r: UserProfile)
    ensures profile.None? ==> r == Defaults(envFlexNumber)
    ensures profile.Some? ==> forall f :: !IsOptionalField(f) ==> Read(r, f) == Read(profile.value, f)
    ensures r.useFlex.Some? && r.flexNumber.Some? && r.flexWorkerHandle.Some?
    ensures profile.Some? && profile.value.useFlex.Some? ==> r.useFlex == profile.value.useFlex
    ensures profile.Some? && profile.value.flexWorkerHandle.Some? ==>
              r.flexWorkerHandle == profile.value.flexWorkerHandle
    ensures profile.Some? && profile.value.useFlex.None? ==> r.useFlex == Defaults(envFlexNumber).useFlex
    ensures profile.Some? && profile.value.flexWorkerHandle.None? ==>
              r.flexWorkerHandle == Defaults(envFlexNumber).flexWorkerHandle
    ensures profile.Some? && !IsBlank(profile.value.flexNumber) ==> r.flexNumber == profile.value.flexNumber
    ensures profile.Some? && IsBlank(profile.value.flexNumber) ==> r.flexNumber == Defaults(envFlexNumber).flexNumber
  {
    var d := Defaults(envFlexNumber);
    match profile
    case None => d
    case Some(p) =>
      p.(useFlex := if p.useFlex.Some? then p.useFlex else d.useFlex,
         flexWorkerHandle := if p.flexWorkerHandle.Some? then p.flexWorkerHandle else d.flexWorkerHandle,
         flexNumber := Some(OrElse(p.flexNumber, d.flexNumber.value)))
  }

  /** Editing a profile read from the store always opens with Flex off and an
      empty worker handle, since the store never kept them. */
  lemma EditingStoredProfileStartsWithoutFlex(item: Item, envFlexNumber: Option<string>)
    requires HasProfileShape(item.attrs)
    ensures InitialValues(Some(ItemToProfile(item)), envFlexNumber).useFlex == Some(false)
    ensures InitialValues(Some(ItemToProfile(item)), envFlexNumber).flexWorkerHandle == Some("")
    ensures InitialValues(Some(ItemToProfile(item)), envFlexNumber).flexNumber == Some(envFlexNumber.GetOr(""))
  {
  }

  // ---------------------------------------------------------------------
  // Submission
  // ---------------------------------------------------------------------

  const PhoneInUseMessage := "This phone number is already in use for another profile"
  const HandleInUseMessage := "This Flex Worker is already in use for another profile"

  /** What the request to the check endpoint produced: a reply, or a thrown
      network error. */
  datatype FetchResult = Replied(response: Response) | FetchFailed

  /** How one submission ends. */
  datatype SubmitOutcome =
    | Blocked(errors: map<Field, string>)  // field errors set, submitting cleared
    | Submitted                            // onSubmit resolved
    | SubmitThrew                          // onSubmit rejected; submitting cleared, rethrown
    | CheckThrew                           // the check request failed; submitting cleared, rethrown

  predicate CallsOnSubmit(o: SubmitOutcome) {
    o.Submitted? || o.SubmitThrew?
  }

  /** The two flags the form reads from the reply's body. An error body has
      neither property, and a missing property reads as false. */
  function ReplyFlags(r: Response): (flags: (bool, bool))
    ensures r.body.ErrorBody? ==> flags == (false, false)
    ensures r.body.Flags? ==> flags == (r.body.phoneNumberUsed, r.body.handleUsed)
  {
    match r.body
    case Flags(phoneNumberUsed, handleUsed) => (phoneNumberUsed, handleUsed)
    case ErrorBody(_) => (false, false)
  }

  /** The flags the form reads from the check route's reply, in terms of the
      table: a flag is set exactly when the store is reachable and the
      corresponding value is given and taken. Every other reply reads as two
      false flags. */
  lemma ReplyFlagsOfRoute(t: Table, phoneNumber: Option<string>, handle: Option<string>)
    ensures ReplyFlags(CheckGet(t, phoneNumber, handle))
         == (t.reachable && !IsBlank(phoneNumber) && ProfileKey(phoneNumber.value) in t.items,
             t.reachable && !IsBlank(handle) && HandleStored(t, handle.value))
  {
  }

  /** The submit handler. `editing` is whether a profile was passed in, in
      which case no check is made; `fetched` is the check reply and
      `onSubmitSucceeds` the outcome of the caller's callback. */
  function HandleSubmit(editing: bool, fetched: FetchResult, onSubmitSucceeds: bool): (o: SubmitOutcome)
    ensures editing ==> CallsOnSubmit(o)
    ensures CallsOnSubmit(o) ==> (o.Submitted? <==> onSubmitSucceeds)
    ensures !editing && fetched.FetchFailed? ==> o == CheckThrew
    ensures !editing && fetched.Replied? ==>
              var (phoneUsed, handleUsed) := ReplyFlags(fetched.response);
              && (CallsOnSubmit(o) <==> !phoneUsed && !handleUsed)
              && (o.Blocked? <==> phoneUsed || handleUsed)
              && (o.Blocked? ==> && (PhoneNumber in o.errors <==> phoneUsed)
                                 && (FlexWorkerHandle in o.errors <==> handleUsed)
                                 && o.errors.Keys <= {PhoneNumber, FlexWorkerHandle}
                                 && (phoneUsed ==> o.errors[PhoneNumber] == PhoneInUseMessage)
                                 && (handleUsed ==> o.errors[FlexWorkerHandle] == HandleInUseMessage))
  {
    if !editing && fetched.FetchFailed? then CheckThrew
    else if !editing && (ReplyFlags(fetched.response).0 || ReplyFlags(fetched.response).1) then
      var (phoneUsed, handleUsed) := ReplyFlags(fetched.response);
      var errors := (if phoneUsed then map[PhoneNumber := PhoneInUseMessage] else map[])
                  + (if handleUsed then map[FlexWorkerHandle := HandleInUseMessage] else map[]);
      Blocked(errors)
    else if onSubmitSucceeds then Submitted
    else SubmitThrew
  }

  /** The handle parameter of the check request, as the route reads it back:
      a present handle is sent as it is, and an absent one is interpolated as
      the text "undefined", which is not blank. */
  function HandleParameter(handle: Option<string>): (param: string)
    ensures handle.Some? ==> param == handle.value
    ensures handle.None? ==> !IsBlank(Some(param)) && param == "undefined"
  {
    handle.GetOr("undefined")
  }

  /** Because an absent handle is sent as non-blank text, a new profile without
      a handle never gets the route's missing-field reply, even when its phone
      number is empty: the route always runs the lookups and checks the text
      "undefined" as a handle. The form's own values always carry a handle
      (`InitialValues` fills one in and every field write keeps it present), so
      this path arises only for values handed to the handler from outside. */
  lemma AbsentHandleIsStillChecked(t: Table, values: UserProfile)
    requires values.flexWorkerHandle.None?
    ensures var reply := CheckGet(t, Some(values.phoneNumber), Some(HandleParameter(values.flexWorkerHandle)));
            && reply.status != 400
            && (reply.status == 200 ==> (reply.body.handleUsed <==> HandleStored(t, "undefined")))
  {
  }

  /** The phone number is taken on the table. */
  predicate PhoneTaken(t: Table, phoneNumber: string) {
    phoneNumber != "" && ProfileKey(phoneNumber) in t.items
  }

  /** The handle parameter names a stored Flex worker handle. */
  predicate HandleTaken(t: Table, handle: string) {
    handle != "" && HandleStored(t, handle)
  }

  /** Submitting a new profile against a table: the check request carries the
      form's phone number and handle, and its reply gates the callback. */
  function SubmitNew(t: Table, values: UserProfile, onSubmitSucceeds: bool): (o: SubmitOutcome)
    ensures !o.CheckThrew?
    ensures o.Blocked? <==>
              t.reachable && (PhoneTaken(t, values.phoneNumber)
                              || HandleTaken(t, HandleParameter(values.flexWorkerHandle)))
    ensures o.Blocked? ==> (PhoneNumber in o.errors <==> PhoneTaken(t, values.phoneNumber))
    ensures !o.Blocked? ==> (o.Submitted? <==> onSubmitSucceeds)
  {
    var reply := CheckGet(t, Some(values.phoneNumber), Some(HandleParameter(values.flexWorkerHandle)));
    HandleSubmit(false, Replied(reply), onSubmitSucceeds)
  }

  /** A new profile whose phone number already has a profile is not submitted,
      and the error sits on the phone number field. */
  lemma TakenPhoneNumberBlocksNewProfile(t: Table, values: UserProfile, onSubmitSucceeds: bool)
    requires t.reachable && values.phoneNumber != ""
    requires ProfileKey(values.phoneNumber) in t.items
    ensures SubmitNew(t, values, onSubmitSucceeds).Blocked?
    ensures PhoneNumber in SubmitNew(t, values, onSubmitSucceeds).errors
  {
  }

  /** On a table built by repository writes alone, the handle is never
      reported as taken, so no submission is blocked on it. */
  lemma HandleNeverBlocksOnRepositoryTables(t: Table, values: UserProfile, onSubmitSucceeds: bool)
    requires NoHandles(t)
    ensures var o := SubmitNew(t, values, onSubmitSucceeds);
            !(o.Blocked? && FlexWorkerHandle in o.errors)
  {
  }

  /** When the store cannot be reached the check replies with an error body,
      which carries no flags, so the new profile is submitted anyway. */
  lemma UnreachableStoreFailsOpen(t: Table, values: UserProfile, onSubmitSucceeds: bool)
    requires !t.reachable
    ensures CallsOnSubmit(SubmitNew(t, values, onSubmitSucceeds))
  {
  }

  // ---------------------------------------------------------------------
  // Language picker
  // ---------------------------------------------------------------------

  /** The language picker of this form writes the four fields of the chosen
      side one after another, each write a separate field update. */
  function LanguageChange(values: UserProfile, languages: seq<Language>, voices: map<string, seq<string>>,
                          side: Side, code: string): (r: UserProfile)
    ensures PF.FindLanguage(languages, code).None? ==> r == values
    ensures forall f :: f !in PF.LanguageFields(side) ==> Read(r, f) == Read(values, f)
    ensures PF.FindLanguage(languages, code).Some? ==>
              var l := PF.FindLanguage(languages, code).value;
              && Read(r, PF.LanguageField(side)) == Some(Text(l.code))
              && Read(r, PF.CodeField(side)) == Some(Text(l.translateCode))
              && Read(r, PF.FriendlyField(side)) == Some(Text(l.friendly))
              && Read(r, PF.VoiceField(side)) == Some(Text(PF.DefaultVoice(voices, l.translateCode)))
  {
    match PF.FindLanguage(languages, code)
    case None => values
    case Some(l) =>
      var voice := PF.DefaultVoice(voices, l.translateCode);
      var v1 := PF.UpdateField(values, PF.LanguageField(side), Text(l.code));
      var v2 := PF.UpdateField(v1, PF.CodeField(side), Text(l.translateCode));
      var v3 := PF.UpdateField(v2, PF.FriendlyField(side), Text(l.friendly));
      PF.UpdateField(v3, PF.VoiceField(side), Text(voice))
  }

  /** The four successive field writes end in the same record as the
      stand-alone form's single spread update. */
  lemma LanguageChangeMatchesProfileForm(values: UserProfile, languages: seq<Language>,
                                         voices: map<string, seq<string>>, side: Side, code: string)
    ensures LanguageChange(values, languages, voices, side, code)
         == PF.LanguageChange(values, languages, voices, side, code)
  {
  }
}

=== FILE: sessions.dfy ===
/** The call-sessions page: ordering the session list by one of three keys,
    and choosing the conversation a session links to. */
module Sessions {
  import opened Common

  /** The session properties the page orders by and links with. */
  datatype Session = Session(
    connectionId: string,
    parentConnectionId: Option<string>,
    name: Option<string>,
    calleeNumber: Option<string>,
    expireAt: Option<int>)

  datatype SortBy = Recent | Caller | Callee

  /** The "recent" key: the expiry time, 0 when missing. */
  function ExpireKey(s: Session): int {
    s.expireAt.GetOr(0)
  }

  /** The "caller" key: the caller name, empty when missing or empty. */
  function NameKey(s: Session): string {
    OrElse(s.name, "")
  }

  /** The "callee" key: the callee number, empty when missing or empty. */
  function CalleeKey(s: Session): string {
    OrElse(s.calleeNumber, "")
  }

  /** Lexicographic order on character codes, standing in for `localeCompare`. */
  predicate StrLe(a: string, b: string)
    decreases |a|
  {
    a == [] || (b != [] && (a[0] < b[0] || (a[0] == b[0] && StrLe(a[1..], b[1..]))))
  }

  lemma {:induction false} StrLeTotal(a: string, b: string)
    ensures StrLe(a, b) || StrLe(b, a)
    decreases |a|
  {
    if a != [] && b != [] && a[0] == b[0] {
      StrLeTotal(a[1..], b[1..]);
    }
  }

  lemma {:induction false} StrLeTransitive(a: string, b: string, c: string)
    requires StrLe(a, b) && StrLe(b, c)
    ensures StrLe(a, c)
    decreases |a|
  {
    if a != [] && b != [] && c != [] && a[0] == b[0] && b[0] == c[0] {
      StrLeTransitive(a[1..], b[1..], c[1..]);
    }
  }

  /** The comparator returns a value <= 0 for (a, b): `a` may come first. Under
      "recent" the later expiry comes first. */
  predicate Le(key: SortBy, a: Session, b: Session) {
    match key
    case Recent => ExpireKey(a) >= ExpireKey(b)
    case Caller => StrLe(NameKey(a), NameKey(b))
    case Callee => StrLe(CalleeKey(a), CalleeKey(b))
  }

  lemma LeTotal(key: SortBy, a: Session, b: Session)
    ensures Le(key, a, b) || Le(key, b, a)
  {
    match key
    case Recent =>
    case Caller => StrLeTotal(NameKey(a), NameKey(b));
    case Callee => StrLeTotal(CalleeKey(a), CalleeKey(b));
  }

  lemma LeTransitive(key: SortBy, a: Session, b: Session, c: Session)
    requires Le(key, a, b) && Le(key, b, c)
    ensures Le(key, a, c)
  {
    match key
    case Recent =>
    case Caller => StrLeTransitive(NameKey(a), NameKey(b), NameKey(c));
    case Callee => StrLeTransitive(CalleeKey(a), CalleeKey(b), CalleeKey(c));
  }

  predicate Sorted(key: SortBy, s: seq<Session>) {
    forall i, j {:trigger Le(key, s[i], s[j])} :: 0 <= i < j < |s| ==> Le(key, s[i], s[j])
  }

  /** Places `x` after every leading element that may precede it. */
  function Insert(key: SortBy, x: Session, s: seq<Session>): (r: seq<Session>)
    ensures |r| == |s| + 1
  {
    if s == [] then [x]
    else if Le(key, s[0], x) then [s[0]] + Insert(key, x, s[1..])
    else [x] + s
  }

  lemma {:induction false} InsertPermutes(key: SortBy, x: Session, s: seq<Session>)
    ensures multiset(Insert(key, x, s)) == multiset(s) + multiset{x}
  {
    if s != [] && Le(key, s[0], x) {
      InsertPermutes(key, x, s[1..]);
      assert s == [s[0]] + s[1..];
    }
  }

  /** Inserting into a sorted list keeps it sorted. */
  lemma {:induction false} InsertKeepsSorted(key: SortBy, x: Session, s: seq<Session>)
    requires Sorted(key, s)
    ensures Sorted(key, Insert(key, x, s))
  {
    if s == [] {
    } else if Le(key, s[0], x) {
      var rest := Insert(key, x, s[1..]);
      InsertKeepsSorted(key, x, s[1..]);
      InsertPermutes(key, x, s[1..]);
      forall i | 0 <= i < |rest| ensures Le(key, s[0], rest[i]) {
        assert rest[i] in multiset(rest);
        if rest[i] != x {
          assert rest[i] in multiset(s[1..]);
          var j :| 0 <= j < |s[1..]| && s[1..][j] == rest[i];
          assert s[j + 1] == rest[i];
        }
      }
      assert Insert(key, x, s) == [s[0]] + rest;
    } else {
      LeTotal(key, s[0], x);
      forall j | 0 <= j < |s| ensures Le(key, x, s[j]) {
        if j > 0 { LeTransitive(key, x, s[0], s[j]); }
      }
      assert Insert(key, x, s) == [x] + s;
    }
  }

  /** The page's sorted copy of the session list (the list itself is untouched):
      ordered by the chosen key and holding exactly the input sessions. */
  function SortSessions(key: SortBy, sessions: seq<Session>): (r: seq<Session>)
    ensures |r| == |sessions|
    ensures Sorted(key, r)
    ensures multiset(r) == multiset(sessions)
    decreases |sessions|
  {
    if sessions == [] then []
    else
      var n := |sessions| - 1;
      var sorted := SortSessions(key, sessions[..n]);
      InsertKeepsSorted(key, sessions[n], sorted);
      InsertPermutes(key, sessions[n], sorted);
      assert sessions == sessions[..n] + [sessions[n]];
      Insert(key, sessions[n], sorted)
  }

  /** Neither may strictly precede the other: the comparator returns 0. */
  predicate Equivalent(key: SortBy, a: Session, b: Session) {
    Le(key, a, b) && Le(key, b, a)
  }

  /** The subsequence of `s` whose elements compare equal to `x`. */
  function Ties(key: SortBy, s: seq<Session>, x: Session): seq<Session> {
    if s == [] then []
    else (if Equivalent(key, s[0], x) then [s[0]] else []) + Ties(key, s[1..], x)
  }

  lemma {:induction false} TiesAppend(key: SortBy, a: seq<Session>, b: seq<Session>, x: Session)
    ensures Ties(key, a + b, x) == Ties(key, a, x) + Ties(key, b, x)
  {
    if a != [] {
      assert (a + b)[0] == a[0];
      assert (a + b)[1..] == a[1..] + b;
      TiesAppend(key, a[1..], b, x);
    } else {
      assert a + b == b;
    }
  }

  lemma {:induction false} TiesNone(key: SortBy, s: seq<Session>, x: Session)
    requires forall i :: 0 <= i < |s| ==> !Equivalent(key, s[i], x)
    ensures Ties(key, s, x) == []
  {
    if s != [] {
      TiesNone(key, s[1..], x);
    }
  }

  /** When `y` sorts before the head of `s`, no element of `s` ties with a tie of `y`. */
  lemma InsertFrontTies(key: SortBy, y: Session, s: seq<Session>, x: Session)
    requires Sorted(key, s) && s != [] && !Le(key, s[0], y)
    ensures Ties(key, [y] + s, x) == Ties(key, s, x) + (if Equivalent(key, y, x) then [y] else [])
  {
    TiesAppend(key, [y], s, x);
    assert Ties(key, [y], x) == (if Equivalent(key, y, x) then [y] else []) + Ties(key, [], x);
    if Equivalent(key, y, x) {
      forall i | 0 <= i < |s| ensures !Equivalent(key, s[i], x) {
        if Equivalent(key, s[i], x) {
          LeTransitive(key, s[i], x, y);
          if i > 0 { LeTransitive(key, s[0], s[i], y); }
        }
      }
      TiesNone(key, s, x);
    }
  }

  /** Inserting `y` adds it at the end of its tie class and moves no other tie. */
  lemma {:induction false} InsertTies(key: SortBy, y: Session, s: seq<Session>, x: Session)
    requires Sorted(key, s)
    ensures Ties(key, Insert(key, y, s), x) == Ties(key, s, x) + (if Equivalent(key, y, x) then [y] else [])
    decreases |s|
  {
    if s == [] {
      assert Insert(key, y, s) == [y];
      assert Ties(key, [y], x) == (if Equivalent(key, y, x) then [y] else []) + Ties(key, [], x);
    } else if Le(key, s[0], y) {
      var rest := Insert(key, y, s[1..]);
      assert Insert(key, y, s) == [s[0]] + rest;
      InsertTies(key, y, s[1..], x);
      TiesAppend(key, [s[0]], rest, x);
      TiesAppend(key, [s[0]], s[1..], x);
      assert [s[0]] + s[1..] == s;
    } else {
      assert Insert(key, y, s) == [y] + s;
      InsertFrontTies(key, y, s, x);
    }
  }

  /** Appending one element extends the tie subsequence by at most that element. */
  lemma TiesSnoc(key: SortBy, s: seq<Session>, y: Session, x: Session)
    ensures Ties(key, s + [y], x) == Ties(key, s, x) + (if Equivalent(key, y, x) then [y] else [])
  {
    TiesAppend(key, s, [y], x);
    assert Ties(key, [y], x) == (if Equivalent(key, y, x) then [y] else []) + Ties(key, [], x);
  }

  /** One insertion step keeps the tie subsequences of the sorted copy equal
      to those of the input prefix it was built from. */
  lemma InsertStepKeepsTies(key: SortBy, prefix: seq<Session>, sorted: seq<Session>, y: Session, x: Session)
    requires Sorted(key, sorted) && Ties(key, sorted, x) == Ties(key, prefix, x)
    ensures Ties(key, Insert(key, y, sorted), x) == Ties(key, prefix + [y], x)
  {
    InsertTies(key, y, sorted, x);
    TiesSnoc(key, prefix, y, x);
  }

  /** The sort is stable: sessions that compare equal keep their input order. */
  lemma {:induction false} SortIsStable(key: SortBy, sessions: seq<Session>, x: Session)
    ensures Ties(key, SortSessions(key, sessions), x) == Ties(key, sessions, x)
    decreases |sessions|
  {
    if sessions != [] {
      var n := |sessions| - 1;
      var prefix := sessions[..n];
      SortIsStable(key, prefix, x);
      InsertStepKeepsTies(key, prefix, SortSessions(key, prefix), sessions[n], x);
      assert sessions == prefix + [sessions[n]];
    }
  }

  /** Under "recent" the expiry never increases along the list; under the two
      name orders the key never decreases. */
  lemma SortedOrderPerKey(key: SortBy, sessions: seq<Session>, i: int, j: int)
    requires 0 <= i < j < |sessions|
    ensures key == Recent ==> ExpireKey(SortSessions(key, sessions)[i]) >= ExpireKey(SortSessions(key, sessions)[j])
    ensures key == Caller ==> StrLe(NameKey(SortSessions(key, sessions)[i]), NameKey(SortSessions(key, sessions)[j]))
    ensures key == Callee ==> StrLe(CalleeKey(SortSessions(key, sessions)[i]), CalleeKey(SortSessions(key, sessions)[j]))
  {
    var r := SortSessions(key, sessions);
    assert Le(key, r[i], r[j]);
  }

  /** The conversation a session's link opens: the parent leg's id when the
      session names a non-empty parent, and otherwise its own id. */
  function ConversationId(s: Session): (id: string)
    ensures !IsBlank(s.parentConnectionId) ==> id == s.parentConnectionId.value
    ensures IsBlank(s.parentConnectionId) ==> id == s.connectionId
    ensures id == "" ==> s.connectionId == ""
  {
    OrElse(s.parentConnectionId, s.connectionId)
  }

  /** A child leg and the top-level session it names as parent open the same
      conversation, and so do two legs of the same parent. */
  lemma LegsShareConversation(parent: Session, child: Session, sibling: Session)
    requires IsBlank(parent.parentConnectionId) && parent.connectionId != ""
    requires child.parentConnectionId == Some(parent.connectionId)
    requires sibling.parentConnectionId == child.parentConnectionId
    ensures ConversationId(child) == ConversationId(parent)
    ensures ConversationId(sibling) == ConversationId(child)
  {
  }
}

=== FILE: store.dfy ===
/** An abstract key-value table standing in for the document store: items are
    attribute maps addressed by their (partition key, sort key) pair, and a
    secondary index groups items by the value of their `pk1` attribute. */
module Store {
  import opened Common
  import opened Types

  /** The attribute value types the application uses: string, number, boolean. */
  datatype Attr = S(s: string) | N(n: int) | BOOL(b: bool)

  /** Attribute names: the two secondary-index key attributes and one
      attribute per profile field. */
  datatype AttrName = Pk1 | Sk1 | Prop(field: Field)

  type Attrs = map<AttrName, Attr>

  /** The primary key: (pk, sk). */
  type Key = (string, string)

  /** A whole item: its key attributes and every other attribute. */
  datatype Item = Item(pk: string, sk: string, attrs: Attrs)

  /** The table. `reachable` is false when every request to the store fails
      (network, credentials, throttling); the model does not distinguish causes. */
  datatype Table = Table(items: map<Key, Attrs>, reachable: bool)

  datatype StoreError = Unreachable

  const EmptyTable := Table(map[], true)

  function KeyOf(item: Item): Key {
    (item.pk, item.sk)
  }

  /** Writes the whole item at its key, replacing any item already there. */
  function Put(t: Table, item: Item): Result<Table, StoreError> {
    if !t.reachable then Err(Unreachable)
    else Ok(t.(items := t.items[KeyOf(item) := item.attrs]))
  }

  /** Point lookup by primary key. */
  function Get(t: Table, k: Key): Result<Option<Item>, StoreError> {
    if !t.reachable then Err(Unreachable)
    else if k in t.items then Ok(Some(Item(k.0, k.1, t.items[k])))
    else Ok(None)
  }

  /** Removes the item at `k`; deleting a missing key is not an error. */
  function Delete(t: Table, k: Key): Result<Table, StoreError> {
    if !t.reachable then Err(Unreachable)
    else Ok(t.(items := t.items - {k}))
  }

  /** The item is in the secondary-index partition whose `pk1` is `v`. */
  predicate InPartition(attrs: Attrs, v: string) {
    Pk1 in attrs && attrs[Pk1] == S(v)
  }

  /** The items of one secondary-index partition, as a finite set. */
  function PartitionItems(t: Table, v: string): set<Item> {
    set k | k in t.items && InPartition(t.items[k], v) :: Item(k.0, k.1, t.items[k])
  }

  /** A query on the secondary index: every item of the partition `pk1 = v`. */
  function Query(t: Table, v: string): Result<set<Item>, StoreError> {
    if !t.reachable then Err(Unreachable)
    else Ok(PartitionItems(t, v))
  }

  /** A filter test: the item holds string `value` under attribute `name`. */
  predicate AttrEquals(item: Item, name: AttrName, value: string) {
    name in item.attrs && item.attrs[name] == S(value)
  }
}

=== FILE: types.dfy ===
/** The records shared by the forms, the repository and the validator: the
    application's `UserProfile`, its field names and the language catalogue
    entries. */
module Types {
  import opened Common

  /** A translation profile. The sixteen caller/callee fields are always
      present; the three Flex fields are optional properties, since a profile
      read back from the store does not carry them. */
  datatype UserProfile = UserProfile(
    phoneNumber: string,
    name: string,
    sourceLanguage: string,
    sourceLanguageCode: string,
    sourceLanguageFriendly: string,
    sourceTranscriptionProvider: string,
    sourceTtsProvider: string,
    sourceVoice: string,
    calleeDetails: bool,
    calleeNumber: string,
    calleeLanguage: string,
    calleeLanguageCode: string,
    calleeLanguageFriendly: string,
    calleeTranscriptionProvider: string,
    calleeTtsProvider: string,
    calleeVoice: string,
    useFlex: Option<bool>,
    flexNumber: Option<string>,
    flexWorkerHandle: Option<string>)

  /** The keys of `UserProfile`. */
  datatype Field =
    | PhoneNumber | Name
    | SourceLanguage | SourceLanguageCode | SourceLanguageFriendly
    | SourceTranscriptionProvider | SourceTtsProvider | SourceVoice
    | CalleeDetails | CalleeNumber
    | CalleeLanguage | CalleeLanguageCode | CalleeLanguageFriendly
    | CalleeTranscriptionProvider | CalleeTtsProvider | CalleeVoice
    | UseFlex | FlexNumber | FlexWorkerHandle

  /** A field value: the text of an input or the state of a checkbox. */
  datatype Value = Text(s: string) | Flag(b: bool)

  /** The two checkbox fields; every other field holds text. */
  predicate IsFlagField(f: Field) {
    f == CalleeDetails || f == UseFlex
  }

  /** The three optional fields. */
  predicate IsOptionalField(f: Field) {
    f == UseFlex || f == FlexNumber || f == FlexWorkerHandle
  }

  /** `v` has the kind field `f` holds. */
  predicate Fits(f: Field, v: Value) {
    IsFlagField(f) <==> v.Flag?
  }

  function TextOf(s: Option<string>): Option<Value> {
    match s
    case Some(t) => Some(Text(t))
    case None => None
  }

  function FlagOf(b: Option<bool>): Option<Value> {
    match b
    case Some(x) => Some(Flag(x))
    case None => None
  }

  /** `p[f]`: the value of field `f`, or None when the optional property is absent. */
  function Read(p: UserProfile, f: Field): (r: Option<Value>)
    ensures r.Some? ==> Fits(f, r.value)
    ensures !IsOptionalField(f) ==> r.Some?
  {
    match f
    case PhoneNumber => Some(Text(p.phoneNumber))
    case Name => Some(Text(p.name))
    case SourceLanguage => Some(Text(p.sourceLanguage))
    case SourceLanguageCode => Some(Text(p.sourceLanguageCode))
    case SourceLanguageFriendly => Some(Text(p.sourceLanguageFriendly))
    case SourceTranscriptionProvider => Some(Text(p.sourceTranscriptionProvider))
    case SourceTtsProvider => Some(Text(p.sourceTtsProvider))
    case SourceVoice => Some(Text(p.sourceVoice))
    case CalleeDetails => Some(Flag(p.calleeDetails))
    case CalleeNumber => Some(Text(p.calleeNumber))
    case CalleeLanguage => Some(Text(p.calleeLanguage))
    case CalleeLanguageCode => Some(Text(p.calleeLanguageCode))
    case CalleeLanguageFriendly => Some(Text(p.calleeLanguageFriendly))
    case CalleeTranscriptionProvider => Some(Text(p.calleeTranscriptionProvider))
    case CalleeTtsProvider => Some(Text(p.calleeTtsProvider))
    case CalleeVoice => Some(Text(p.calleeVoice))
    case UseFlex => FlagOf(p.useFlex)
    case FlexNumber => TextOf(p.flexNumber)
    case FlexWorkerHandle => TextOf(p.flexWorkerHandle)
  }

  /** An entry of the language catalogue: the form's language code, the code
      the translation and voice tables are keyed by, and a display name. */
  datatype Language = Language(code: string, translateCode: string, friendly: string)

  /** Which party of the call a language choice applies to. */
  datatype Side = Source | Callee
}

=== FILE: validator.dfy ===
/** The uniqueness checks run before a profile is created: a point lookup for
    the phone number and an index query filtered on the Flex worker handle.
    Both are pure functions of the table, so neither can change it. */
module Validator {
  import opened Common
  import opened Types
  import opened Store
  import opened Repository

  /** checkPhoneNumberUsed: a blank input answers false without a lookup;
      otherwise the answer is whether the profile key is occupied. */
  function CheckPhoneNumberUsed(t: Table, phoneNumber: Option<string>): (r: Result<bool, StoreError>)
    ensures IsBlank(phoneNumber) ==> r == Ok(false)
    ensures !IsBlank(phoneNumber) ==> (r.Ok? <==> t.reachable)
    ensures !IsBlank(phoneNumber) && r.Ok? ==>
              (r.value <==> ProfileKey(phoneNumber.value) in t.items)
  {
    if IsBlank(phoneNumber) then Ok(false)
    else
      match Get(t, ProfileKey(phoneNumber.value))
      case Err(e) => Err(e)
      case Ok(found) => Ok(found.Some?)
  }

  /** The partition items that hold `handle` as their Flex worker handle. */
  function HandleMatches(items: set<Item>, handle: string): set<Item> {
    set it | it in items && AttrEquals(it, Prop(FlexWorkerHandle), handle)
  }

  /** Some item of the profile partition carries exactly this handle. */
  predicate HandleStored(t: Table, handle: string) {
    exists k :: k in t.items && InPartition(t.items[k], ProfileTag)
                && Prop(FlexWorkerHandle) in t.items[k]
                && t.items[k][Prop(FlexWorkerHandle)] == S(handle)
  }

  /** checkFlexWorkerUsed: a blank input answers false without a query;
      otherwise the answer is whether some item of the `pk1 = "profile"`
      partition has a `flexWorkerHandle` equal to the input, case included. */
  function CheckFlexWorkerUsed(t: Table, handle: Option<string>): (r: Result<bool, StoreError>)
    ensures IsBlank(handle) ==> r == Ok(false)
    ensures !IsBlank(handle) ==> (r.Ok? <==> t.reachable)
    ensures !IsBlank(handle) && r.Ok? ==> (r.value <==> HandleStored(t, handle.value))
  {
    if IsBlank(handle) then Ok(false)
    else
      match Query(t, ProfileTag)
      case Err(e) => Err(e)
      case Ok(items) =>
        var matched := HandleMatches(items, handle.value);
        assert |matched| > 0 <==> HandleStored(t, handle.value) by {
          if HandleStored(t, handle.value) {
            var k :| k in t.items && InPartition(t.items[k], ProfileTag)
                     && Prop(FlexWorkerHandle) in t.items[k]
                     && t.items[k][Prop(FlexWorkerHandle)] == S(handle.value);
            assert Item(k.0, k.1, t.items[k]) in matched;
          }
          if |matched| > 0 {
            var it :| it in matched;
          }
        }
        Ok(|matched| > 0)
  }

  /** The profile partition of a table: the items whose `pk1` is "profile". */
  function PartitionView(t: Table): map<Key, Attrs> {
    map k | k in t.items && InPartition(t.items[k], ProfileTag) :: t.items[k]
  }

  /** Items outside the profile partition never affect the handle check: two
      tables with the same partition give the same answer. */
  lemma HandleCheckSeesOnlyPartition(t1: Table, t2: Table, handle: Option<string>)
    requires t1.reachable == t2.reachable
    requires PartitionView(t1) == PartitionView(t2)
    ensures CheckFlexWorkerUsed(t1, handle) == CheckFlexWorkerUsed(t2, handle)
  {
    if !IsBlank(handle) && t1.reachable {
      var h := handle.value;
      if HandleStored(t1, h) {
        var k :| k in t1.items && InPartition(t1.items[k], ProfileTag)
                 && Prop(FlexWorkerHandle) in t1.items[k] && t1.items[k][Prop(FlexWorkerHandle)] == S(h);
        assert k in PartitionView(t1);
        assert k in PartitionView(t2);
      }
      if HandleStored(t2, h) {
        var k :| k in t2.items && InPartition(t2.items[k], ProfileTag)
                 && Prop(FlexWorkerHandle) in t2.items[k] && t2.items[k][Prop(FlexWorkerHandle)] == S(h);
        assert k in PartitionView(t2);
        assert k in PartitionView(t1);
      }
    }
  }

  /** No item of the table carries a Flex worker handle. */
  predicate NoHandles(t: Table) {
    forall k :: k in t.items ==> Prop(FlexWorkerHandle) !in t.items[k]
  }

  /** On such a table the handle check never answers true. */
  lemma HandleCheckFalseWithoutHandles(t: Table, handle: Option<string>)
    requires NoHandles(t)
    ensures CheckFlexWorkerUsed(t, handle) != Ok(true)
  {
  }

  /** A write through the repository. */
  datatype RepositoryOp = PutOp(profile: UserProfile) | DeleteOp(phoneNumber: string)

  /** Applies repository writes in order, stopping at the first failure. */
  function Replay(t: Table, ops: seq<RepositoryOp>): Result<Table, StoreError>
    decreases |ops|
  {
    if ops == [] then Ok(t)
    else
      var step := match ops[0]
        case PutOp(p) => PutProfile(t, p)
        case DeleteOp(n) => DeleteProfile(t, n);
      match step
      case Err(e) => Err(e)
      case Ok(t') => Replay(t', ops[1..])
  }

  /** Repository writes never introduce a Flex worker handle, because the
      mapping does not write one. */
  lemma {:induction false} ReplayKeepsNoHandles(t: Table, ops: seq<RepositoryOp>)
    requires NoHandles(t)
    ensures Replay(t, ops).Ok? ==> NoHandles(Replay(t, ops).value)
    decreases |ops|
  {
    if ops != [] {
      match ops[0]
      case PutOp(p) =>
        if t.reachable {
          ProfileItemAttributes(p);
          ReplayKeepsNoHandles(PutProfile(t, p).value, ops[1..]);
        }
      case DeleteOp(n) =>
        if t.reachable {
          ReplayKeepsNoHandles(DeleteProfile(t, n).value, ops[1..]);
        }
    }
  }

  /** So on any table built from empty by repository writes alone, the
      handle check can never report a handle as used. */
  lemma HandleCheckNeverFiresOnRepositoryTables(ops: seq<RepositoryOp>, handle: Option<string>)
    ensures Replay(EmptyTable, ops).Ok? ==>
              CheckFlexWorkerUsed(Replay(EmptyTable, ops).value, handle) != Ok(true)
  {
    ReplayKeepsNoHandles(EmptyTable, ops);
    if Replay(EmptyTable, ops).Ok? {
      HandleCheckFalseWithoutHandles(Replay(EmptyTable, ops).value, handle);
    }
  }

  /** Whereas a profile item is found by the phone check as soon as it is written. */
  lemma PhoneCheckSeesPut(t: Table, p: UserProfile)
    requires t.reachable && p.phoneNumber != ""
    ensures PutProfile(t, p).Ok?
    ensures CheckPhoneNumberUsed(PutProfile(t, p).value, Some(p.phoneNumber)) == Ok(true)
    ensures DeleteProfile(PutProfile(t, p).value, p.phoneNumber).Ok?
    ensures CheckPhoneNumberUsed(DeleteProfile(PutProfile(t, p).value, p.phoneNumber).value,
                                 Some(p.phoneNumber)) == Ok(false)
  {
  }
}
